=== FILE: README.md ===
# Voice bot decision layer, in Dafny

This project models the part of a Telegram text-to-speech bot (`bot.py`) whose
behaviour can be stated apart from the network: the voice catalog and the
per-user voice preference store, the `/voice` keyboard layout, the decision
`handle_text_message` takes about an incoming message, and what the inline-query
and text-message handlers do with the outcome of uploading a voice file.

- `wrappers.dfy`: `Option`.
- `text.dfy`: the Python string operations the handlers rely on
  (`startswith`, substring `in`, `replace(p, "")`, `strip()`), over `seq<char>`.
- `catalog.dfy`: the `{id, name}` records, the default voice, and `FindByName`,
  the first record carrying a name.
- `outbound.dfy`: the effects a handler produces (replies, synthesis, staging,
  upload, inline answers, cleanup, a re-raised error), the upload outcome and
  the bot's fixed texts.
- `keyboard.dfy`: the catalog names laid out two to a row.
- `preferences.dfy`: class `VoicePreferences` holding the catalog and the
  `user_voices` map; `Choose` is the scanning loop of `voice_chosen`, `Resolve`
  is `user_voices.get(user, default_voice)`. Its invariant is that every stored
  id is a catalog id, so every resolved voice is a catalog voice.
- `dispatch.dfy`: `Decide`, the ordered checks of `handle_text_message`.
- `delivery.dfy`: the `except TelegramBadRequest` classification and the two
  post-synthesis flows as effect traces.
- `handlers.dfy`: the handlers composing all of the above.

Where the code departs from what a reader might expect, the model follows the
code:

- The text flow has no `finally`. When an upload failure is re-raised, the
  staged file is not removed and the "processing" reply is not deleted
  (`Delivery.TextFlowCleanup`).
- The inline flow releases the staged file only through the cleanup task it
  schedules after a successful upload. A refused or failed upload leaves the
  file in place (`Delivery.InlineQueryFlow`, `Releases(trace) == 0`).
- The text that is synthesized and used as the caption is the message's
  original text, mention included. The stripped text is used only to decide
  whether to ignore the message (`Dispatch.Decide`).
- The mention is stripped only when the text starts with it. In a one-to-one
  chat a whitespace-only text is synthesized as it is
  (`Dispatch.PrivateTextUnstripped`).
- A message equal to a voice name selects that voice in every kind of chat,
  including a group where the bot is not mentioned
  (`Dispatch.VoiceNameSelectsEverywhere`).
- `voice_chosen` is only called after a name match, so its "invalid choice"
  reply cannot be reached from `handle_text_message`. `Choose` still models
  that reply.

## Model

| member | source | states |
|---|---|---|
| `Text.RemoveAll` | bot.py:155 | `replace(mention, "")` never lengthens the text and only keeps characters of the text |
| `Text.RemoveAllFirst` | bot.py:155 | `replace(mention, "")` cuts the leftmost occurrence, keeps what precedes it unchanged, and resumes scanning right after it |
| `Text.RemoveAllAbsent` | bot.py:155 | a text without any occurrence of the pattern is returned unchanged |
| `Text.TrimStart` | bot.py:155 | the result is a suffix of the input, everything cut off is whitespace, and it does not start with whitespace |
| `Text.TrimEnd` | bot.py:155 | the result is a prefix of the input, everything cut off is whitespace, and it does not end with whitespace |
| `Text.Strip` | bot.py:155 | `strip()` gives a contiguous part of the text, everything before and after it is whitespace, and it neither starts nor ends with whitespace |
| `Text.StripEmptyIffAllSpace` | bot.py:155-161 | the stripped text is empty exactly when every character is whitespace |
| `Catalog.DefaultVoice` | bot.py:28 | the default voice of a non-empty catalog is the first record's id, hence a catalog id |
| `Catalog.FindByName` | bot.py:59-60 | the result is the first position whose name matches, and there is none exactly when the name is not among the catalog names |
| `Catalog.FindByNameOfDistinct` | bot.py:59-63 | with distinct names, choosing record i's name finds record i |
| `Outbound.VoiceSetTextInjective` | bot.py:62 | different chosen names give different confirmations, so the reply names the voice that was set |
| `Keyboard.Layout` | bot.py:51 | there are ceil(n/2) rows, each row holds 1 or 2 names, and only the last row can hold one |
| `Keyboard.LayoutFlattens` | bot.py:50-51 | reading the rows in order gives back the catalog names in order |
| `Keyboard.VoiceMenu` | bot.py:48-53 | the `/voice` reply carries the prompt "Please choose a voice:" and a keyboard laid out by `Layout` (two names to a row), whose buttons read back as the catalog names, in ceil(n/2) rows |
| `Preferences.VoicePreferences.constructor` | bot.py:28-29 | start-up needs a non-empty catalog and starts with no stored choices |
| `Preferences.VoicePreferences.Resolve` | bot.py:75 | the resolved voice is the stored choice if there is one, else the first record's id, and it is always a catalog id |
| `Preferences.VoicePreferences.Choose` | bot.py:55-64 | the first record named as the text becomes the user's voice, only that user's entry changes, and the reply confirms; with no match nothing changes and the reply is "invalid choice" |
| `Dispatch.Decide` | bot.py:141-163 | a voice-name match selects, and nothing else does; synthesis uses the message's own text, its cleaned form is non-empty, and in a group it starts with the mention |
| `Dispatch.DecideSynthesizeIff` | bot.py:142-163 | a message is synthesized exactly when it has text, is no voice name, is addressed in a group, and is non-empty once the mention is handled |
| `Dispatch.VoiceNameSelectsEverywhere` | bot.py:142-144 | a voice name selects in every chat type, before the group check |
| `Dispatch.BareMentionIgnored` | bot.py:150-161 | the mention followed only by whitespace is ignored in every chat type |
| `Dispatch.PrivateTextUnstripped` | bot.py:154-163 | in a one-to-one chat a non-empty text without a leading mention is synthesized unchanged |
| `Delivery.Classify` | bot.py:121-134 | a successful upload proceeds with its file id, a TelegramBadRequest mentioning VOICE_MESSAGES_FORBIDDEN is recovered, and exactly the remaining failures are re-raised as they were |
| `Delivery.OtherFailureReraised` | bot.py:191-195 | a failure that is not a TelegramBadRequest is re-raised even if its text mentions the marker |
| `Delivery.InlineAfterUpload` | bot.py:98-134 | after the upload: one cached-voice answer and one scheduled cleanup (which also deletes the private upload), with no immediate unlink, on success; one article answer and no cleanup on a privacy refusal; otherwise a raise of the send failure, with no answer; nothing raises before the last effect |
| `Delivery.InlineQueryFlow` | bot.py:69-134 | an empty query produces nothing; otherwise the query is synthesized, staged and sent to the asking user once, with no further synthesis or upload, then answered once (voice or privacy article) or the send failure is re-raised unchanged; success schedules the cleanup task and unlinks nothing at once, and nothing raises before the last effect |
| `Delivery.InlineFlowCarriesQuery` | bot.py:79-97 | the inline flow synthesizes the query with the resolved voice and uploads it to the asking user with the query as caption |
| `Delivery.TextMessageFlow` | bot.py:168-203 | the flow starts with the processing reply, synthesis, staging and upload with the text as caption, and synthesizes and uploads nothing more; it ends by raising exactly when the failure is not recovered, what it raises is the send failure itself, and no earlier effect raises |
| `Delivery.TextFlowCleanup` | bot.py:185-203 | the staged file is unlinked at once (never by a scheduled task) exactly once and the processing reply deleted once, last, unless the failure is re-raised, in which case neither happens |
| `Delivery.TextFlowApology` | bot.py:191-193 | the text flow apologises exactly once on a privacy refusal, never otherwise, and never answers an inline query |
| `Delivery.TextFlowCarriesText` | bot.py:163-190 | the text flow synthesizes the text with the resolved voice and uploads it to the message's chat with the text as caption |
| `Handlers.VoiceCommand` | bot.py:43-53 | `/voice` replies once, with the voice menu: the prompt and the catalog names two to a row, reading back as the catalog names |
| `Handlers.HandleTextMessage` | bot.py:140-203 | a selection stores the first matching record's id for the sender and confirms; an ignored message changes nothing and produces nothing; a synthesized message leaves the store unchanged and follows the text flow with the sender's resolved voice |
| `Handlers.HandleInlineQuery` | bot.py:66-134 | the inline handler follows the inline flow with the sender's resolved voice, and every synthesis uses a catalog voice |

## Left out

- `bot.me()` is the `botUsername` parameter; `send_voice`, `query.answer`, `message.reply` and message deletion are effects in a trace (the inline upload's deletion is part of `ScheduleCleanup`). Only the upload's outcome and the bot's username are parameters; every other call is taken to succeed.
- The speech provider client and its audio stream are opaque (`Synthesize` effect). A synthesis failure, which would propagate out of either handler, is not modelled.
- Temporary-file creation, writing and `os.unlink` are the `StageArtifact` and `UnlinkArtifact` effects. The inline flow's `asyncio.create_task` cleanup with its delay is the single `ScheduleCleanup` effect; its timing and fire-and-forget concurrency are not modelled.
- Interleaving of handlers at `await` points is not modelled: each handler runs as one step.
- Loading `.env` and `voices.json`, the check of the API keys in `main`, logging and `uuid4` result ids are I/O or randomness. The catalog is given to the constructor, which requires it to be non-empty. The source only prints a message for an empty catalog and then fails on `voices[0]`.
- Handlers.HandleTextMessage: does not model the dispatcher's routing. The `/start` and `/voice` command handlers (bot.py:38, bot.py:43) are registered before the catch-all message handler, so a message that the command filter matches never reaches `handle_text_message`. Applied to such a text, the model would treat it as free text (in a one-to-one chat, synthesize it), while the program runs the command handler instead.
- `/start` and the chosen-inline-result handler only reply with a fixed text or log, and are not modelled.
- A catalog entry whose name or id is not a string is not modelled. `Choose` takes the text as a string because `voice_chosen` is only called with a matching name.
- `Delivery.Classify`: the error's text is taken to be `str(e)` as given. The prefix aiogram adds to that text is not modelled.

=== FILE: catalog.dfy ===
/**
 * The voice catalog: the list of `{id, name}` records loaded once at start-up,
 * whose first record supplies the default voice.
 */
module Catalog {
  import opened Wrappers

  type VoiceId = string

  datatype Voice = Voice(id: VoiceId, name: string)

  /** The display names, in catalog order (the `voice_names` list). */
  function Names(voices: seq<Voice>): seq<string>
  {
    seq(|voices|, k requires 0 <= k < |voices| => voices[k].name)
  }

  /** `id` is the id of some catalog record. */
  ghost predicate IsCatalogId(voices: seq<Voice>, id: VoiceId)
  {
    exists k :: 0 <= k < |voices| && voices[k].id == id
  }

  /** `default_voice`: the first record's id; an empty catalog has none. */
  function DefaultVoice(voices: seq<Voice>): (id: VoiceId)
    requires |voices| > 0
    ensures id == voices[0].id
    ensures IsCatalogId(voices, id)
  {
    voices[0].id
  }

  /**
   * The position of the first record whose name equals `name`, found by
   * scanning in catalog order, or `None` when no name matches.
   */
  function FindByName(voices: seq<Voice>, name: string): (r: Option<nat>)
    ensures r.Some? ==> r.value < |voices| && voices[r.value].name == name
    ensures r.Some? ==> forall k :: 0 <= k < r.value ==> voices[k].name != name
    ensures r.None? <==> name !in Names(voices)
  {
    if |voices| == 0 then None
    else
      assert Names(voices) == [voices[0].name] + Names(voices[1..]);
      if voices[0].name == name then Some(0)
      else match FindByName(voices[1..], name)
      case None => None
      case Some(k) => Some(k + 1)
  }

  /** The names are pairwise different (catalog names are expected to be distinct; nothing checks it). */
  predicate DistinctNames(voices: seq<Voice>)
  {
    forall i, j :: 0 <= i < j < |voices| ==> voices[i].name != voices[j].name
  }

  /** With distinct names, looking up record `i`'s name finds record `i`. */
  lemma {:induction false} FindByNameOfDistinct(voices: seq<Voice>, i: nat)
    requires DistinctNames(voices) && i < |voices|
    ensures FindByName(voices, voices[i].name) == Some(i)
  {
    var r := FindByName(voices, voices[i].name);
    assert r.Some? by { assert Names(voices)[i] == voices[i].name; }
  }
}

=== FILE: delivery.dfy ===
/**
 * What happens after synthesis is requested, in the inline-query flow and in
 * the text-message flow, as a function of the upload's outcome.
 */
module Delivery {
  import opened Text
  import opened Catalog
  import opened Outbound

  /** How the handlers' `except TelegramBadRequest` clause treats an upload's outcome. */
  datatype Handling = Uploaded(fileId: string) | Recovered | Reraised(error: SendOutcome)

  /**
   * The one failure a handler recovers from is a TelegramBadRequest whose
   * text mentions `VOICE_MESSAGES_FORBIDDEN`; every other failure is re-raised.
   */
  function Classify(send: SendOutcome): (h: Handling)
    ensures h.Uploaded? <==> send.Delivered?
    ensures send.Delivered? ==> h == Uploaded(send.fileId)
    ensures h == Recovered <==> send.BadRequest? && Contains(send.description, ForbiddenMarker)
    ensures h.Reraised? <==> !send.Delivered? && !(send.BadRequest? && Contains(send.description, ForbiddenMarker))
    ensures h.Reraised? ==> h.error == send
  {
    match send
    case Delivered(fileId) => Uploaded(fileId)
    case BadRequest(description) =>
      if Contains(description, ForbiddenMarker) then Recovered else Reraised(send)
    case OtherFailure(_) => Reraised(send)
  }

  /** A failure that is not a TelegramBadRequest is re-raised, whatever its text says. */
  lemma OtherFailureReraised(description: string)
    ensures Classify(OtherFailure(description)) == Reraised(OtherFailure(description))
  {
  }

  /** The handler ends by raising. */
  predicate Raises(trace: seq<Effect>)
  {
    trace != [] && trace[|trace| - 1].Raise?
  }

  /** No effect but the last one raises: a raise ends the handler. */
  predicate RaisesOnlyLast(trace: seq<Effect>)
  {
    forall k :: 0 <= k < |trace| - 1 ==> !trace[k].Raise?
  }

  /** How many times the staged file is released, at once or by a scheduled task. */
  function Releases(trace: seq<Effect>): nat
  {
    multiset(trace)[UnlinkArtifact] + multiset(trace)[ScheduleCleanup]
  }

  /** The inline query is answered exactly once, with `results`. */
  predicate AnswersOnce(trace: seq<Effect>, results: seq<InlineResult>)
  {
    && multiset(trace)[Answer(results)] == 1
    && forall e :: e in trace && e.Answer? ==> e.results == results
  }

  /** The inline query is never answered. */
  predicate NeverAnswers(trace: seq<Effect>)
  {
    forall e :: e in trace ==> !e.Answer?
  }

  /** The effects up to the upload, shared by both flows. */
  function Upload(text: string, chat: ChatId, voice: VoiceId): seq<Effect>
  {
    [Synthesize(text, voice, ModelId), StageArtifact, SendVoice(chat, text)]
  }

  /** What follows the inline flow's upload, by outcome. */
  function InlineAfterUpload(h: Handling): (rest: seq<Effect>)
    ensures rest != []
    ensures forall e :: e in rest ==> !e.Synthesize? && !e.SendVoice?
    ensures RaisesOnlyLast(rest)
    ensures h.Uploaded? ==>
              && AnswersOnce(rest, [CachedVoice(CachedVoiceTitle, h.fileId, "")])
              && Releases(rest) == 1 && !Raises(rest)
              && multiset(rest)[ScheduleCleanup] == 1 && multiset(rest)[UnlinkArtifact] == 0
    ensures h.Recovered? ==>
              && AnswersOnce(rest, [Article(ForbiddenTitle, ForbiddenGuide)])
              && Releases(rest) == 0 && !Raises(rest)
    ensures h.Reraised? ==>
              && NeverAnswers(rest)
              && Releases(rest) == 0 && rest[|rest| - 1] == Raise(h.error)
  {
    if h.Uploaded? then [ScheduleCleanup, Answer([CachedVoice(CachedVoiceTitle, h.fileId, "")])]
    else if h == Recovered then [Answer([Article(ForbiddenTitle, ForbiddenGuide)])]
    else [Raise(h.error)]
  }

  /**
   * `inline_query_handler` once the voice is resolved: an empty query does
   * nothing; otherwise the query is synthesized, staged and sent privately to
   * the asking user, and the upload's outcome decides the rest.
   */
  function InlineQueryFlow(query: string, user: UserId, voice: VoiceId, h: Handling): (trace: seq<Effect>)
    ensures trace == [] <==> query == []
    ensures query != [] ==> |trace| > 3 && trace[..3] == Upload(query, user, voice)
    ensures RaisesOnlyLast(trace)
    ensures query != [] && h.Uploaded? ==>
              && AnswersOnce(trace, [CachedVoice(CachedVoiceTitle, h.fileId, "")])
              && Releases(trace) == 1 && !Raises(trace)
              && multiset(trace)[ScheduleCleanup] == 1 && multiset(trace)[UnlinkArtifact] == 0
    ensures query != [] && h.Recovered? ==>
              && AnswersOnce(trace, [Article(ForbiddenTitle, ForbiddenGuide)])
              && Releases(trace) == 0 && !Raises(trace)
    ensures query != [] && h.Reraised? ==>
              && NeverAnswers(trace)
              && Releases(trace) == 0 && trace[|trace| - 1] == Raise(h.error)
    ensures query != [] ==> forall e :: e in trace[3..] ==> !e.Synthesize? && !e.SendVoice?
  {
    if query == [] then []
    else
      var head, rest := Upload(query, user, voice), InlineAfterUpload(h);
      assert multiset(head + rest) == multiset(head) + multiset(rest);
      assert (head + rest)[3..] == rest;
      head + rest
  }

  /** The opening effects of the text flow: the "processing" reply, then the upload. */
  function TextHead(text: string, chat: ChatId, voice: VoiceId): seq<Effect>
  {
    [Reply(ProcessingText, NoMarkup)] + Upload(text, chat, voice)
  }

  /** What follows the text flow's upload, by outcome. */
  function TextAfterUpload(h: Handling): seq<Effect>
  {
    match h
    case Uploaded(_) => [UnlinkArtifact, DeleteProcessing]
    case Recovered => [Reply(ApologyText, NoMarkup), UnlinkArtifact, DeleteProcessing]
    case Reraised(error) => [Raise(error)]
  }

  /**
   * `handle_text_message` once the message is to be synthesized: reply
   * "processing", synthesize, stage and send the text as the caption; the
   * privacy refusal gets an apology; file removal and deletion of the
   * "processing" reply follow only when nothing is re-raised.
   */
  function TextMessageFlow(text: string, chat: ChatId, voice: VoiceId, h: Handling): (trace: seq<Effect>)
    ensures |trace| > 4 && trace[..4] == [Reply(ProcessingText, NoMarkup)] + Upload(text, chat, voice)
    ensures Raises(trace) <==> h.Reraised?
    ensures h.Reraised? ==> trace[|trace| - 1] == Raise(h.error)
    ensures forall e :: e in trace[4..] ==> !e.Synthesize? && !e.SendVoice?
    ensures RaisesOnlyLast(trace)
  {
    var head, rest := TextHead(text, chat, voice), TextAfterUpload(h);
    assert (head + rest)[4..] == rest;
    head + rest
  }

  /** The effects of the text flow's opening counted: nothing there cleans up, apologises or answers. */
  lemma TextHeadCounts(text: string, chat: ChatId, voice: VoiceId)
    ensures multiset(TextHead(text, chat, voice))[UnlinkArtifact] == 0
    ensures multiset(TextHead(text, chat, voice))[ScheduleCleanup] == 0
    ensures multiset(TextHead(text, chat, voice))[DeleteProcessing] == 0
    ensures multiset(TextHead(text, chat, voice))[Reply(ApologyText, NoMarkup)] == 0
    ensures NeverAnswers(TextHead(text, chat, voice))
  {
    assert |ApologyText| != |ProcessingText|;
  }

  /**
   * There is no `finally`: the staged file is removed at once (not by a
   * scheduled task) and the "processing" reply deleted, exactly once each when
   * the upload succeeds or is refused for privacy, and never when the failure
   * is re-raised.
   */
  lemma TextFlowCleanup(text: string, chat: ChatId, voice: VoiceId, h: Handling)
    ensures Releases(TextMessageFlow(text, chat, voice, h)) == if h.Reraised? then 0 else 1
    ensures multiset(TextMessageFlow(text, chat, voice, h))[DeleteProcessing] == if h.Reraised? then 0 else 1
    ensures !h.Reraised? ==> TextMessageFlow(text, chat, voice, h)[|TextMessageFlow(text, chat, voice, h)| - 1] == DeleteProcessing
    ensures multiset(TextMessageFlow(text, chat, voice, h))[UnlinkArtifact] == if h.Reraised? then 0 else 1
    ensures multiset(TextMessageFlow(text, chat, voice, h))[ScheduleCleanup] == 0
  {
    var head, rest := TextHead(text, chat, voice), TextAfterUpload(h);
    TextHeadCounts(text, chat, voice);
    assert multiset(head + rest) == multiset(head) + multiset(rest);
  }

  /** The text flow apologises exactly once when the upload was refused for privacy, never otherwise, and never answers an inline query. */
  lemma TextFlowApology(text: string, chat: ChatId, voice: VoiceId, h: Handling)
    ensures Reply(ApologyText, NoMarkup) in TextMessageFlow(text, chat, voice, h) <==> h.Recovered?
    ensures multiset(TextMessageFlow(text, chat, voice, h))[Reply(ApologyText, NoMarkup)] == if h.Recovered? then 1 else 0
    ensures NeverAnswers(TextMessageFlow(text, chat, voice, h))
  {
    var head, rest := TextHead(text, chat, voice), TextAfterUpload(h);
    TextHeadCounts(text, chat, voice);
    assert multiset(head + rest) == multiset(head) + multiset(rest);
  }

  /** Every synthesis in `trace` is of `text` with `voice`, and every upload goes to `chat` with `text` as its caption. */
  predicate Carries(trace: seq<Effect>, text: string, chat: ChatId, voice: VoiceId)
  {
    forall e :: e in trace ==>
      && (e.Synthesize? ==> e.text == text && e.voice == voice)
      && (e.SendVoice? ==> e.caption == text && e.chat == chat)
  }

  /** Whatever the outcome, the text flow synthesizes and captions the text handed in, with the voice handed in. */
  lemma TextFlowCarriesText(text: string, chat: ChatId, voice: VoiceId, h: Handling)
    ensures Carries(TextMessageFlow(text, chat, voice, h), text, chat, voice)
  {
    var head := TextHead(text, chat, voice);
    assert Carries(head, text, chat, voice);
    CarriesAppend(head, TextAfterUpload(h), text, chat, voice);
  }

  /** Whatever the outcome, the inline flow synthesizes and captions the query, with the voice handed in. */
  lemma InlineFlowCarriesQuery(query: string, user: UserId, voice: VoiceId, h: Handling)
    ensures Carries(InlineQueryFlow(query, user, voice, h), query, user, voice)
  {
    if query != [] {
      var head := Upload(query, user, voice);
      assert Carries(head, query, user, voice);
      CarriesAppend(head, InlineAfterUpload(h), query, user, voice);
    }
  }

  lemma CarriesAppend(a: seq<Effect>, b: seq<Effect>, text: string, chat: ChatId, voice: VoiceId)
    requires Carries(a, text, chat, voice)
    requires forall e :: e in b ==> !e.Synthesize? && !e.SendVoice?
    ensures Carries(a + b, text, chat, voice)
  {
  }
}

=== FILE: dispatch.dfy ===
/**
 * The decision `handle_text_message` takes before any network call: select a
 * voice, ignore the message, or synthesize speech for a text.
 */
module Dispatch {
  import opened Wrappers
  import opened Text

  /** The kinds of chat a message update comes from (channel posts arrive as other updates). */
  datatype ChatType = Private | Group | Supergroup

  datatype Decision = SelectVoice | Ignore | Speak(text: string)

  /** The bot's mention token, `@<username>`. */
  function Mention(botUsername: string): string
  {
    "@" + botUsername
  }

  predicate IsMultiParty(chat: ChatType)
  {
    chat == Group || chat == Supergroup
  }

  /**
   * The text left once a leading mention is handled: every mention removed and
   * the rest stripped when the text starts with the mention, the text untouched
   * otherwise.
   */
  function Cleaned(text: string, botUsername: string): string
  {
    if StartsWith(text, Mention(botUsername)) then Strip(RemoveAll(text, Mention(botUsername)))
    else text
  }

  /**
   * The checks in their fixed order: a voice name, an absent text, an
   * unaddressed group message, an empty remainder. What is synthesized is the
   * message's own text, mention included.
   */
  function Decide(text: Option<string>, chat: ChatType, botUsername: string, voiceNames: seq<string>): (d: Decision)
    ensures d == SelectVoice <==> text.Some? && text.value in voiceNames
    ensures d.Speak? ==> text == Some(d.text)
    ensures d.Speak? ==> Cleaned(d.text, botUsername) != []
    ensures d.Speak? && IsMultiParty(chat) ==> StartsWith(d.text, Mention(botUsername))
  {
    if text.Some? && text.value in voiceNames then SelectVoice
    else if text.None? then Ignore
    else if IsMultiParty(chat) && !StartsWith(text.value, Mention(botUsername)) then Ignore
    else if Cleaned(text.value, botUsername) == [] then Ignore
    else Speak(text.value)
  }

  /** The message is synthesized exactly when it passes every check, and then as it was sent. */
  lemma DecideSynthesizeIff(text: Option<string>, chat: ChatType, botUsername: string, voiceNames: seq<string>, t: string)
    ensures Decide(text, chat, botUsername, voiceNames) == Speak(t) <==>
              && text == Some(t)
              && t !in voiceNames
              && (IsMultiParty(chat) ==> StartsWith(t, Mention(botUsername)))
              && Cleaned(t, botUsername) != []
  {
  }

  /** A voice name selects a voice in every kind of chat, mentioned or not. */
  lemma VoiceNameSelectsEverywhere(t: string, chat: ChatType, botUsername: string, voiceNames: seq<string>)
    requires t in voiceNames
    ensures Decide(Some(t), chat, botUsername, voiceNames) == SelectVoice
  {
  }

  /**
   * A message made of the mention and whitespace only is ignored in every
   * kind of chat (unless it is itself a voice name).
   */
  lemma {:induction false} BareMentionIgnored(botUsername: string, spaces: string, chat: ChatType, voiceNames: seq<string>)
    requires forall k :: 0 <= k < |spaces| ==> IsSpace(spaces[k])
    requires Mention(botUsername) + spaces !in voiceNames
    ensures Decide(Some(Mention(botUsername) + spaces), chat, botUsername, voiceNames) == Ignore
  {
    var m := Mention(botUsername);
    var t := m + spaces;
    assert t[..|m|] == m;
    assert t[|m|..] == spaces;
    assert !Contains(spaces, m) by {
      forall i: nat | i <= |spaces| ensures !OccursAt(spaces, m, i) {
        assert i < |spaces| ==> IsSpace(spaces[i]);
      }
    }
    RemoveAllAbsent(spaces, m);
    assert RemoveAll(t, m) == spaces;
    StripEmptyIffAllSpace(spaces);
  }

  /**
   * In a one-to-one chat, a text that does not start with the mention is
   * synthesized unstripped: whitespace alone is enough.
   */
  lemma PrivateTextUnstripped(t: string, botUsername: string, voiceNames: seq<string>)
    requires t != [] && t !in voiceNames && !StartsWith(t, Mention(botUsername))
    ensures Decide(Some(t), Private, botUsername, voiceNames) == Speak(t)
  {
  }
}

=== FILE: handlers.dfy ===
/**
 * The bot's update handlers, wiring the pure decisions to the preference
 * store: `/voice`, free text, and inline queries. Everything the platform or
 * the speech provider does is an effect in the returned trace; the upload's
 * outcome is a parameter.
 */
module Handlers {
  import opened Wrappers
  import opened Catalog
  import opened Outbound
  import opened Keyboard
  import opened Preferences
  import opened Dispatch
  import opened Delivery

  /** The parts of an incoming message the bot looks at. */
  datatype Message = Message(sender: UserId, chat: ChatId, chatType: ChatType, text: Option<string>)

  /** `voice_command` / `choose_voice`: offer the catalog as a keyboard; no state changes. */
  method VoiceCommand(prefs: VoicePreferences) returns (trace: seq<Effect>)
    requires prefs.Valid()
    ensures trace == [VoiceMenu(prefs.voices)]
    ensures |trace| == 1 && trace[0].Reply? && trace[0].text == ChoosePrompt && trace[0].markup.ReplyKeyboard?
    ensures Flatten(trace[0].markup.rows) == Names(prefs.voices)
  {
    trace := [VoiceMenu(prefs.voices)];
  }

  /**
   * `handle_text_message`: a voice name selects that voice for the sender;
   * an ignored message does nothing; otherwise the message's own text is
   * synthesized with the sender's resolved voice and delivered.
   */
  method HandleTextMessage(prefs: VoicePreferences, msg: Message, botUsername: string, send: SendOutcome)
    returns (trace: seq<Effect>)
    requires prefs.Valid()
    modifies prefs
    ensures prefs.Valid()
    ensures Decide(msg.text, msg.chatType, botUsername, Names(prefs.voices)) == SelectVoice ==>
              && FindByName(prefs.voices, msg.text.value).Some?
              && prefs.userVoices == old(prefs.userVoices)[msg.sender := prefs.voices[FindByName(prefs.voices, msg.text.value).value].id]
              && trace == [Reply(VoiceSetText(msg.text.value), RemoveKeyboard)]
    ensures Decide(msg.text, msg.chatType, botUsername, Names(prefs.voices)) == Ignore ==>
              prefs.userVoices == old(prefs.userVoices) && trace == []
    ensures Decide(msg.text, msg.chatType, botUsername, Names(prefs.voices)).Speak? ==>
              && prefs.userVoices == old(prefs.userVoices)
              && msg.text.Some?
              && trace == TextMessageFlow(msg.text.value, msg.chat, prefs.Resolve(msg.sender), Classify(send))
  {
    var decision := Decide(msg.text, msg.chatType, botUsername, Names(prefs.voices));
    match decision
    case SelectVoice =>
      var reply := prefs.Choose(msg.sender, msg.text.value);
      trace := [reply];
    case Ignore =>
      trace := [];
    case Speak(text) =>
      var voice := prefs.Resolve(msg.sender);
      trace := TextMessageFlow(text, msg.chat, voice, Classify(send));
  }

  /**
   * `inline_query_handler`: an empty query is dropped; otherwise the query is
   * synthesized with the sender's resolved voice, uploaded to the sender and
   * offered back as the answer. The store is only read.
   */
  method HandleInlineQuery(prefs: VoicePreferences, sender: UserId, query: string, send: SendOutcome)
    returns (trace: seq<Effect>)
    requires prefs.Valid()
    ensures trace == InlineQueryFlow(query, sender, prefs.Resolve(sender), Classify(send))
    ensures forall e :: e in trace && e.Synthesize? ==> IsCatalogId(prefs.voices, e.voice)
  {
    var voice := prefs.Resolve(sender);
    trace := InlineQueryFlow(query, sender, voice, Classify(send));
    InlineFlowCarriesQuery(query, sender, voice, Classify(send));
  }

  /**
   * With a catalog of two distinctly named voices, sending the second name
   * selects the second voice, and the next message in a private chat is
   * synthesized with it.
   */
  method SelectSecondVoiceScenario()
  {
    var first, second := Voice("id-1", "Alice"), Voice("id-2", "Bob");
    var prefs := new VoicePreferences([first, second]);
    assert prefs.Resolve(7) == "id-1";
    assert Names(prefs.voices) == ["Alice", "Bob"];
    var trace := HandleTextMessage(prefs, Message(7, 7, Private, Some("Bob")), "voicebot", Delivered("file"));
    assert trace == [Reply(VoiceSetText("Bob"), RemoveKeyboard)];
    assert prefs.Resolve(7) == "id-2";
    assert prefs.Resolve(8) == "id-1";
  }
}

=== FILE: keyboard.dfy ===
/**
 * The `/voice` menu: the catalog names laid out, in order, two to a row.
 */
module Keyboard {
  import opened Catalog
  import opened Outbound

  function Min(a: int, b: int): int { if a <= b then a else b }

  /**
   * `[names[i:i+2] for i in range(0, len(names), 2)]`: row `k` is the slice
   * starting at `2 * k`, cut short by the end of the list.
   */
  function Layout(names: seq<string>): (rows: seq<seq<string>>)
    ensures |rows| == (|names| + 1) / 2
    ensures forall k :: 0 <= k < |rows| ==> 1 <= |rows[k]| <= 2
    ensures forall k :: 0 <= k < |rows| - 1 ==> |rows[k]| == 2
  {
    seq((|names| + 1) / 2, k requires 0 <= k < (|names| + 1) / 2 => names[2 * k..Min(2 * k + 2, |names|)])
  }

  /** The rows read left to right, top to bottom. */
  function Flatten(rows: seq<seq<string>>): seq<string>
  {
    if rows == [] then [] else rows[0] + Flatten(rows[1..])
  }

  /** Past its first row, the layout is the layout of the remaining names. */
  lemma LayoutUnfold(names: seq<string>)
    requires |names| > 2
    ensures Layout(names) == [names[..2]] + Layout(names[2..])
  {
    var rows, rest := Layout(names), Layout(names[2..]);
    assert |rows| == 1 + |rest|;
    forall k | 0 < k < |rows| ensures rows[k] == rest[k - 1] {
      var lo, hi := 2 * k, Min(2 * k + 2, |names|);
      assert 2 * (k - 1) == lo - 2 && Min(2 * (k - 1) + 2, |names| - 2) == hi - 2;
      assert rows[k] == names[lo..hi];
      assert rest[k - 1] == names[2..][lo - 2..hi - 2];
      assert names[2..][lo - 2..hi - 2] == names[lo..hi];
    }
  }

  /** Reading the keyboard back gives the catalog names in their original order. */
  lemma {:induction false} LayoutFlattens(names: seq<string>)
    ensures Flatten(Layout(names)) == names
    decreases |names|
  {
    if |names| == 0 {
    } else if |names| <= 2 {
      assert Layout(names)[0] == names[0..|names|] == names;
      assert Layout(names) == [names];
      assert Flatten(Layout(names)) == names + Flatten([]);
    } else {
      LayoutUnfold(names);
      LayoutFlattens(names[2..]);
      assert Layout(names)[1..] == Layout(names[2..]);
      assert names[..2] + names[2..] == names;
    }
  }

  /** The reply `choose_voice` sends: the prompt with the catalog's names as buttons. */
  function VoiceMenu(voices: seq<Voice>): (e: Effect)
    ensures e.Reply? && e.text == ChoosePrompt && e.markup.ReplyKeyboard?
    ensures e.markup.rows == Layout(Names(voices))
    ensures Flatten(e.markup.rows) == Names(voices)
    ensures |e.markup.rows| == (|voices| + 1) / 2
  {
    LayoutFlattens(Names(voices));
    Reply(ChoosePrompt, ReplyKeyboard(Layout(Names(voices))))
  }
}

=== FILE: outbound.dfy ===
/**
 * What the bot asks of the messaging platform and of the speech provider,
 * recorded as a trace of effects, and the outcome of uploading a voice file.
 */
module Outbound {
  import opened Catalog

  type UserId = int
  type ChatId = int

  /** The reply markup attached to a text reply. */
  datatype Markup =
    | NoMarkup
    | ReplyKeyboard(rows: seq<seq<string>>)   // a one-time, resized quick-reply keyboard
    | RemoveKeyboard

  /** One entry of an inline-query answer. */
  datatype InlineResult =
    | CachedVoice(title: string, fileId: string, caption: string)
    | Article(title: string, messageText: string)

  /** What `send_voice` gives back: the uploaded file's id, or the error it raised. */
  datatype SendOutcome =
    | Delivered(fileId: string)
    | BadRequest(description: string)    // a TelegramBadRequest; `description` is its `str(e)`
    | OtherFailure(description: string)  // any other exception

  /** One observable step of a handler, in the order the handler takes it. */
  datatype Effect =
    | Reply(text: string, markup: Markup)
    | Synthesize(text: string, voice: VoiceId, model: string)   // the speech provider call
    | StageArtifact                              // stream the audio into a fresh temporary file
    | SendVoice(chat: ChatId, caption: string)   // upload the staged file as a voice message
    | ScheduleCleanup                            // background task: wait, unlink the file, delete the upload
    | Answer(results: seq<InlineResult>)
    | UnlinkArtifact
    | DeleteProcessing                           // delete the "Generating voice message..." reply
    | Raise(error: SendOutcome)                  // the exception leaves the handler

  const ForbiddenMarker := "VOICE_MESSAGES_FORBIDDEN"
  const ModelId := "eleven_multilingual_v2"
  const ChoosePrompt := "Please choose a voice:"
  const InvalidChoiceText := "Invalid voice choice. Please try again."
  const ProcessingText := "Generating voice message..."
  const ApologyText := "Your private settings do not allow me to send voice messages."
  const CachedVoiceTitle := "Voice message by @voicy_gg_bot"
  const ForbiddenTitle := "Voice messages are disabled in your privacy settings"
  const ForbiddenGuide := "Please enable voice messages in your privacy settings to use this bot."

  /** The confirmation sent after a successful selection. */
  function VoiceSetText(name: string): string
  {
    "Voice set to " + name + "."
  }

  /** Different names get different confirmations, so the reply tells which voice was set. */
  lemma VoiceSetTextInjective(a: string, b: string)
    ensures VoiceSetText(a) == VoiceSetText(b) ==> a == b
  {
    if VoiceSetText(a) == VoiceSetText(b) {
      var t := VoiceSetText(a);
      assert a == t[|"Voice set to "|..|t| - 1] == b;
    }
  }
}

=== FILE: preferences.dfy ===
/**
 * The per-user voice preference store: the process-wide `user_voices`
 * dictionary beside the read-only catalog, updated in place by a selection.
 */
module Preferences {
  import opened Wrappers
  import opened Catalog
  import opened Outbound

  class VoicePreferences {
    const voices: seq<Voice>
    var userVoices: map<UserId, VoiceId>

    /** The catalog has a default, and every stored choice is a catalog id. */
    ghost predicate Valid()
      reads this
    {
      && |voices| > 0
      && forall u :: u in userVoices ==> IsCatalogId(voices, userVoices[u])
    }

    /** Start-up: the catalog is given (it must be non-empty) and no user has chosen yet. */
    constructor (voices: seq<Voice>)
      requires |voices| > 0
      ensures Valid()
      ensures this.voices == voices && userVoices == map[]
    {
      this.voices := voices;
      userVoices := map[];
    }

    /**
     * `user_voices.get(user, default_voice)`: the stored choice, or the
     * catalog's first id for a user who never chose; always a catalog id.
     */
    function Resolve(user: UserId): (id: VoiceId)
      reads this
      requires Valid()
      ensures IsCatalogId(voices, id)
      ensures user in userVoices ==> id == userVoices[user]
      ensures user !in userVoices ==> id == voices[0].id
    {
      if user in userVoices then userVoices[user] else DefaultVoice(voices)
    }

    /**
     * `voice_chosen`: scan the catalog in order; at the first record named
     * `text`, store its id for `user` and confirm; with no such record,
     * change nothing and answer "invalid choice".
     */
    method Choose(user: UserId, text: string) returns (reply: Effect)
      requires Valid()
      modifies this
      ensures Valid()
      ensures FindByName(voices, text).Some? ==>
                && userVoices == old(userVoices)[user := voices[FindByName(voices, text).value].id]
                && reply == Reply(VoiceSetText(text), RemoveKeyboard)
      ensures FindByName(voices, text).None? ==>
                && userVoices == old(userVoices)
                && reply == Reply(InvalidChoiceText, NoMarkup)
      ensures FindByName(voices, text).Some? ==> Resolve(user) == voices[FindByName(voices, text).value].id
      ensures forall u :: u != user ==> Resolve(u) == old(Resolve(u))
    {
      var i := 0;
      while i < |voices|
        invariant 0 <= i <= |voices|
        invariant forall k :: 0 <= k < i ==> voices[k].name != text
        invariant userVoices == old(userVoices)
      {
        if voices[i].name == text {
          assert Names(voices)[i] == text;
          assert FindByName(voices, text) == Some(i);
          userVoices := userVoices[user := voices[i].id];
          return Reply(VoiceSetText(text), RemoveKeyboard);
        }
        i := i + 1;
      }
      assert text !in Names(voices);
      return Reply(InvalidChoiceText, NoMarkup);
    }
  }
}

=== FILE: text.dfy ===
/**
 * The handful of Python string operations the bot relies on, over `seq<char>`:
 * `str.startswith`, the substring test `p in s`, `str.replace(p, "")` and
 * `str.strip()` with no argument.
 */
module Text {

  /** The characters Python's `str.isspace` accepts, which `str.strip()` removes. */
  predicate IsSpace(c: char)
  {
    || c == ' ' || c == '\t' || c == '\n' || c == '\r'
    || c == '\U{B}' || c == '\U{C}'
    || ('\U{1C}' <= c <= '\U{1F}')
    || c == '\U{85}' || c == '\U{A0}' || c == '\U{1680}'
    || ('\U{2000}' <= c <= '\U{200A}')
    || c == '\U{2028}' || c == '\U{2029}' || c == '\U{202F}' || c == '\U{205F}' || c == '\U{3000}'
  }

  /** `s.startswith(p)` */
  predicate StartsWith(s: string, p: string)
  {
    |p| <= |s| && s[..|p|] == p
  }

  /** An occurrence of `p` starts at position `i` of `s`. */
  predicate OccursAt(s: string, p: string, i: nat)
  {
    i + |p| <= |s| && s[i..i + |p|] == p
  }

  /** `p in s`: `p` occurs somewhere in `s` */
  predicate Contains(s: string, p: string)
  {
    exists i: nat :: i <= |s| && OccursAt(s, p, i)
  }

  /** Dropping the first character loses at most an occurrence at the very start. */
  lemma ContainsTail(s: string, p: string)
    requires s != [] && !Contains(s, p)
    ensures !StartsWith(s, p) && !Contains(s[1..], p)
  {
    assert !OccursAt(s, p, 0);
    forall i: nat | i <= |s| - 1 ensures !OccursAt(s[1..], p, i) {
      assert !OccursAt(s, p, i + 1);
      if i + |p| <= |s| - 1 {
        assert s[1..][i..i + |p|] == s[i + 1..i + 1 + |p|];
      }
    }
  }

  /**
   * `s.replace(p, "")`: scanning left to right, every non-overlapping
   * occurrence of `p` is cut out; the scan resumes just after a cut.
   */
  function RemoveAll(s: string, p: string): (r: string)
    requires p != []
    ensures |r| <= |s|
    ensures forall k :: 0 <= k < |r| ==> r[k] in s
    decreases |s|
  {
    if |s| < |p| then s
    else if s[..|p|] == p then RemoveAll(s[|p|..], p)
    else [s[0]] + RemoveAll(s[1..], p)
  }

  /**
   * The leftmost occurrence is cut and the scan resumes just after it: what
   * precedes it is kept as it is, provided no occurrence starts earlier.
   */
  lemma {:induction false} RemoveAllFirst(u: string, p: string, v: string)
    requires p != [] && !Contains(u + p[..|p| - 1], p)
    ensures RemoveAll(u + p + v, p) == u + RemoveAll(v, p)
    decreases |u|
  {
    var s := u + p + v;
    if u == [] {
      assert s[..|p|] == p && s[|p|..] == v;
    } else {
      NoEarlierOccurrence(u, p, v);
      RemoveAllFirst(u[1..], p, v);
      assert s[1..] == u[1..] + p + v;
      assert [s[0]] + (u[1..] + RemoveAll(v, p)) == u + RemoveAll(v, p);
    }
  }

  lemma NoEarlierOccurrence(u: string, p: string, v: string)
    requires p != [] && u != [] && !Contains(u + p[..|p| - 1], p)
    ensures (u + p + v)[..|p|] != p
    ensures !Contains(u[1..] + p[..|p| - 1], p)
  {
    var w := u + p[..|p| - 1];
    ContainsTail(w, p);
    assert (u + p + v)[..|p|] == w[..|p|];
    assert w[1..] == u[1..] + p[..|p| - 1];
  }

  /** A string without any occurrence of the pattern is left as it is. */
  lemma {:induction false} RemoveAllAbsent(s: string, p: string)
    requires p != [] && !Contains(s, p)
    ensures RemoveAll(s, p) == s
    decreases |s|
  {
    if |s| >= |p| {
      ContainsTail(s, p);
      RemoveAllAbsent(s[1..], p);
      assert [s[0]] + s[1..] == s;
    }
  }

  /** `s.lstrip()` */
  function TrimStart(s: string): (r: string)
    ensures |r| <= |s| && r == s[|s| - |r|..]
    ensures forall k :: 0 <= k < |s| - |r| ==> IsSpace(s[k])
    ensures r == [] || !IsSpace(r[0])
    decreases |s|
  {
    if |s| > 0 && IsSpace(s[0]) then TrimStart(s[1..]) else s
  }

  /** `s.rstrip()` */
  function TrimEnd(s: string): (r: string)
    ensures |r| <= |s| && r == s[..|r|]
    ensures forall k :: |r| <= k < |s| ==> IsSpace(s[k])
    ensures r == [] || !IsSpace(r[|r| - 1])
    decreases |s|
  {
    if |s| > 0 && IsSpace(s[|s| - 1]) then TrimEnd(s[..|s| - 1]) else s
  }

  /** `s.strip()`: the longest middle part of `s` that neither starts nor ends with whitespace. */
  function Strip(s: string): (r: string)
    ensures exists i: nat ::
              && OccursAt(s, r, i)
              && (forall k :: 0 <= k < i ==> IsSpace(s[k]))
              && (forall k :: i + |r| <= k < |s| ==> IsSpace(s[k]))
    ensures r == [] || (!IsSpace(r[0]) && !IsSpace(r[|r| - 1]))
  {
    var left := TrimStart(s);
    var r := TrimEnd(left);
    assert r == s[|s| - |left|..][..|r|] == s[|s| - |left|..|s| - |left| + |r|];
    assert OccursAt(s, r, |s| - |left|);
    r
  }

  /** Stripping leaves nothing exactly when every character is whitespace. */
  lemma StripEmptyIffAllSpace(s: string)
    ensures Strip(s) == [] <==> forall k :: 0 <= k < |s| ==> IsSpace(s[k])
  {
    var left := TrimStart(s);
    if Strip(s) == [] {
      assert forall k :: 0 <= k < |s| ==> IsSpace(s[k]);
    } else {
      var i: nat :| OccursAt(s, Strip(s), i);
      assert Strip(s)[0] == s[i] && !IsSpace(s[i]);
    }
  }
}

=== FILE: wrappers.dfy ===
/** Optional values: a message whose text is absent, a name with no catalog entry. */
module Wrappers {

  datatype Option<+T> = None | Some(value: T)
}
